=== FILE: README.md ===
# NURSA election server — a verified model

`server.js` is an Express server for a student-association election. It has:

- a student registry, with access ids and PBKDF2-hashed passwords and security answers;
- a ballot ledger, with one salted SHA-256 fingerprint per student id that has voted;
- a voting window;
- a single admin bearer token.

Every route handler is synchronous. Each request is therefore one atomic transition of that state, and the model is written that way, in two layers.

- **Specification layer (pure).**
  - Module `Election` gives one function per route. Each maps a `State` and the request to a `Step`: the next state plus the JSON reply, either `Ok` or an `Error` per failure message.
  - `Inv` is the invariant. Student ids are pairwise distinct and every record is fully registered. There is one fingerprint per ballot, and no fingerprint appears twice. Every route preserves `Inv`.
  - Supporting modules:
    - `Text`: JavaScript hex rendering, ASCII `toUpperCase`/`toLowerCase`, `trim` over the ECMAScript whitespace set, and decimal rendering.
    - `Crypto`: `createHash`, `verifyHash` and `getVoteHash`.
    - `Registry`: student records, id normalisation and the access-id lookup.
    - `Ledger`: ballots, reference codes and the results tally.
    - `Csv`: the export.
    - `Auth`: bearer-token extraction and the admin gate.
  - `Trace` lifts the per-route guarantees to arbitrary runs of requests.
  - `Walkthrough` follows one complete election: register, log in, vote, be refused a second vote, read the tally.
- **Server layer (imperative).** `Api.Server` is a class.
  - Its fields are the registry, the ledger, the fingerprint list, the window and the token.
  - Each route is a method that updates those fields in place. Its contract ties the new state and the reply to the matching `Election` function.
  - The results count and the CSV export are `while` loops, like the source's `forEach` loops. Each is proved equal to its specification fold.

The model's parameters stand in for what it cannot compute itself:

- the cryptographic primitives (PBKDF2-SHA512 and SHA-256), as function values in `Election.Primitives`;
- `Date.now()` and `new Date().toISOString()`;
- every `crypto.randomBytes` draw;
- the `Math.random` reference-code suffix.

`new Date(...)` parsing is the primitive `parseDate`. The model assumes nothing of these parameters beyond their output lengths, so every result holds whatever they compute.

Behaviour modelled as written:

- `/api/vote` fingerprints the student id exactly as sent. It does not normalise the id or check that the student is registered. A missing id is fingerprinted as the text `undefined`.
- The recovery code is stored in plain text.
- CSV fields are quoted but not escaped (`Csv.ExportUnescaped`).
- A results ballot naming an unknown candidate adds a key whose count is `NaN`. This is modelled as `Ledger.Count.NaN` rather than ruled out.
- An empty `Authorization` header yields the empty token. A header without a space yields no token. Neither equals a token that is still `null`, so no request passes before the first admin login.

## Model

| member | source | states |
|---|---|---|
| Election.Initial | server.js:36-37 | the start-up state has an empty registry, ledger and fingerprint list, no admin token and the configured window, and satisfies the invariant |
| Election.Register | server.js:114-159 | the "all fields required" error exactly when a field is empty or the passwords differ; "already registered" exactly when the upper-cased, trimmed id is taken; success otherwise; state unchanged on error; on success exactly one record is appended, holding the normalised id, the name "Student " followed by that id, the issued access id, the issued recovery code (the upper-case hex of the 10 drawn bytes), the question and hashes that verify the password and the lower-cased, trimmed answer; the invariant is preserved |
| Election.NewRecord | server.js:128-148 | the appended record holds the normalised id, the name "Student " followed by that id, the issued access id and recovery code and the question; it is fully registered, and its hashes verify the password and the lower-cased, trimmed answer |
| Election.AppendFreshId | server.js:122-150 | appending a record whose id is not yet taken keeps student ids pairwise distinct |
| Election.RegisterThenLogin | server.js:128-175 | logging in with the access id a registration issued and the same password succeeds and returns the new record's normalised id and the name "Student " followed by it, provided no earlier record held that access id |
| Election.Login | server.js:162-187 | the "required" error exactly when access id or password is empty; "invalid access id" when no record holds the trimmed, upper-cased access id; otherwise the reply is decided by the first record holding it: "invalid access id" when that record lacks a password hash or salt, its identity (with "Student" for an empty name) when its hash verifies the password, "incorrect password" when it does not |
| Election.LoginFirstMatch | server.js:169-186 | on a state satisfying the invariant, a complete login succeeds with the first matching record's identity exactly when that record's hash verifies the password, and is otherwise refused as an incorrect password |
| Election.LoginSurvivesRegister | server.js:150-169 | a successful registration leaves the reply of every login whose normalised access id is not the newly issued one unchanged |
| Election.Vote | server.js:193-219 | refused as closed exactly when the reported status is not open (both bounds inclusive); refused as already voted exactly when open and the fingerprint is already listed; accepted exactly when open and the fingerprint is new; state unchanged on refusal; on acceptance the ballot and its fingerprint are appended and nothing else changes, the reply is the reference code, and the invariant is preserved |
| Election.VoteOnce | server.js:201-204 | after an accepted vote, any later vote with the same student id is refused: as closed when the window is shut, otherwise as already voted |
| Election.AdminLogin | server.js:252-260 | a wrong password changes nothing; the right one installs as token the lower-case hex of the 32 drawn bytes (64 characters, reading back as exactly those bytes), and afterwards exactly the requests whose bearer token is that token pass |
| Election.AdminLoginRevokes | server.js:252-256 | after an admin login the `Bearer <new token>` header passes and the header with any different previous token no longer does |
| Election.SetPeriod | server.js:262-274 | unauthorised requests and a missing start or end change nothing and report the error; otherwise both bounds are set to the parsed dates and nothing else changes |
| Election.OpenVoting | server.js:276-283 | for an admin, the start becomes now minus 1000 ms and the end the 2030-12-31 sentinel; the window is then open at now exactly when now is not past the sentinel; otherwise nothing changes |
| Election.CloseVoting | server.js:285-290 | for an admin, only the end moves, to now minus 1000 ms, and the window is closed at now and at every later instant; otherwise nothing changes |
| Election.Reset | server.js:292-297 | for an admin, the ballots and fingerprints are emptied and the registry, window and token are kept; otherwise nothing changes |
| Election.ExportVotes | server.js:299-311 | unauthorised requests are refused; for an admin the reply is the export text of the current ledger, which is the "No votes recorded." notice exactly when the ledger is empty |
| Auth.BearerHeader | server.js:99-107 | a `Bearer <t>` header passes the admin gate (`Auth.BearerToken` takes the text between the first space and the next, `Auth.Authorized` compares it with the current token) exactly when `t` is the current token |
| Auth.NoTokenNoAccess | server.js:99-107 | before any admin login no request passes the gate, whatever header it carries |
| Auth.SecondFieldOf | server.js:101 | the second space-separated field of `p t` is `t` when neither part holds a space |
| Auth.UpToSpace | server.js:101 | the field read is a space-free prefix ending at a space or at the end of the header |
| Auth.SecondField | server.js:101 | `split(' ')[1]` is undefined exactly when the header has no space |
| Auth.SecondFieldValue | server.js:101 | for any header whose first space is at position k, `split(' ')[1]` is the text after it up to the next space or the end (so `Bearer tok extra` yields `tok`) |
| Crypto.CreateHash | server.js:80-89 | the salt is 32 lower-case hex characters and the hash 128, and the pair verifies the hashed value |
| Crypto.VoteHash | server.js:91-93 | the fingerprint is 64 lower-case hex characters |
| Registry.AccessIdFrom | server.js:128 | the access id is `ACCESS-` followed by 16 upper-case hex digits, and login's trim-and-upper-case normalisation leaves it unchanged |
| Registry.AccessIdIsNormal | server.js:128 | the same facts for the concatenation itself: its length and prefix, and that trimming and upper-casing leave it unchanged |
| Registry.HexPrefixedIsNormal | server.js:169 | text that starts with a non-blank and has no lower-case letter, followed by upper-cased hex digits, is left unchanged by login's trim-then-upper-case normalisation |
| Registry.RecoveryCodeFrom | server.js:129 | the recovery code is 20 upper-case hex digits |
| Registry.FindByAccessId | server.js:169 | the lookup returns the first record with the given access id, and none exactly when no record has it |
| Ledger.RefCode | server.js:206 | the reference code is `NM-2026-` followed by four digits that read back as the drawn suffix |
| Ledger.TallyKnown | server.js:227-237 | each listed candidate's count equals the number of ballots naming them for that office |
| Ledger.TallyUnknown | server.js:233-237 | a name that is not listed and not empty appears in the counts exactly when some ballot names it, and then its count is NaN |
| Ledger.Results | server.js:225-240 | the total is the number of ballots and each listed candidate's count is their number of votes, for all three offices |
| Csv.ExportText | server.js:299-306 | the export is the notice exactly for an empty ledger, and otherwise starts with the header line |
| Csv.ExportAppend | server.js:303-306 | accepting one more ballot appends exactly its quoted row to the export, after the header for the first ballot |
| Csv.RowsAppend | server.js:304-306 | the rows of a longer ledger extend the rows of its prefix, in ledger order |
| Csv.ExportNewlines | server.js:303-306 | when no field holds a line break, a non-empty export has one line per ballot plus the header |
| Csv.ExportUnescaped | server.js:305 | fields are copied unescaped: when any field of a newly accepted ballot holds a line break, its row adds at least two line breaks to the export of any ledger, instead of the one that ends a row |
| Text.FromHexLower | server.js:255 | `toString('hex')` loses nothing: reading the rendered hex back gives the bytes, so the admin token determines the drawn bytes |
| Text.HexLower | server.js:81-82 | the hex rendering is two lower-case hex characters per byte |
| Text.UpperNormalizes | server.js:121 | upper-casing leaves no lower-case letter and is the identity on text that has none |
| Text.UpperHex | server.js:128-129 | upper-casing lower-case hex digits gives upper-case hex digits of the same length |
| Text.TrimStart | server.js:121 | trimming the start drops exactly the leading whitespace |
| Text.TrimEnd | server.js:121 | trimming the end drops exactly the trailing whitespace |
| Text.ParseDecimalOf | server.js:206 | the decimal rendering of a number reads back as that number |
| Text.DecimalLength | server.js:206 | a number from 1000 to 9999 renders as four digits |
| Trace.Next | server.js:114-311 | every request keeps the invariant, and every request other than reset keeps the ledger as a prefix of the next one |
| Trace.RunKeepsInv | server.js:114-311 | every run of requests from a state satisfying the invariant keeps it |
| Trace.LedgerGrowsWithoutReset | server.js:208-215 | without a reset, ballots and fingerprints are never lost |
| Trace.OnceVotedAlwaysRefused | server.js:201-204 | after an accepted vote and any run without a reset, the same student id is refused |
| Walkthrough.RegisterLoginVoteTally | server.js:114-240 | on a fresh server STU001 registers and logs in, votes once and gets a reference code, is refused a second time, and the president tally reads one vote for the chosen candidate and none for the other |
| Walkthrough.RegisterThenLoginFresh | server.js:114-187 | on a fresh server any complete form is accepted, the ledger stays empty and the window is kept, and the issued access id logs in with the same password under the normalised id |
| Walkthrough.VoteThenTally | server.js:193-240 | the vote, repeat vote and tally part of that walkthrough |
| Api.Server.RequireAdmin | server.js:99-107 | the gate reads the current token field and passes exactly the authorised requests |
| Api.Server.Register | server.js:114-159 | the registry is updated in place exactly as `Election.Register` prescribes, and the reply is its reply |
| Api.Server.Login | server.js:162-187 | read-only; the reply is `Election.Login` of the current state |
| Api.Server.Vote | server.js:193-219 | the ledger and fingerprints are updated in place exactly as `Election.Vote` prescribes |
| Api.Server.Results | server.js:225-240 | the counting loop computes `Ledger.Results` of the current ledger |
| Api.Server.VotingStatus | server.js:242-246 | reports the window and whether it contains now, as `Election.VotingStatus` computes it |
| Api.Server.AdminLogin | server.js:252-260 | the token field is updated exactly as `Election.AdminLogin` prescribes |
| Api.Server.SetPeriod | server.js:262-274 | the window fields are updated exactly as `Election.SetPeriod` prescribes |
| Api.Server.OpenVoting | server.js:276-283 | the window fields are updated exactly as `Election.OpenVoting` prescribes |
| Api.Server.CloseVoting | server.js:285-290 | the end field is updated exactly as `Election.CloseVoting` prescribes |
| Api.Server.Reset | server.js:292-297 | the ledger fields are emptied exactly as `Election.Reset` prescribes |
| Api.Server.ExportVotes | server.js:299-311 | the loop that appends one row per ballot computes `Election.ExportVotes` of the current state |

## Left out

- Cryptography: PBKDF2-SHA512 (10000 iterations), SHA-256 and `crypto.randomBytes` are parameters. Collision resistance and entropy are outside what can be proved. In particular, distinct student ids are not proved to give distinct fingerprints.
- `Math.random` is a float. The reference-code suffix is an integer parameter in 1000..9999, the range `Math.floor(1000 + Math.random() * 9000)` produces.
- Persistence: the lowdb JSON files and every `read`/`write`. The model starts from an empty registry and ledger, because a file-loaded state need not satisfy the invariant.
- The default window reads `new Date('2026-01-06T08:00:00')` in local time, so its value depends on the host's time zone. The window bounds are therefore constructor parameters of `Api.Server`.
- Date parsing: `new Date(x).getTime()` is the `parseDate` parameter, and it returns an integer. An unparseable date gives NaN in the source, which is not modelled. With NaN bounds both comparisons in the vote gate are false, so the window would count as open.
- Express plumbing: routing, CORS, JSON body parsing, static files, the `/` route, HTTP status codes, the CSV download headers and file name, `app.listen` and console logging.
- Request bodies whose fields are not strings, such as numbers or objects, are not modelled. Every field is a string, and an absent field is the empty string, except the vote's student id, which is optional.
- Upper and lower casing cover only the ASCII letters. JavaScript's full Unicode case mapping is not modelled.
- Results keys that collide with `Object.prototype` members (such as `__proto__`) behave specially in JavaScript. They are treated as ordinary names.
- Password reset and the security-question recovery are not part of `server.js`, so they are not part of this model.
- Timing of comparisons (string `===` on hashes and tokens) is not modelled.

=== FILE: auth.dfy ===
/** The admin gate: reading the bearer token from the Authorization header and matching it. */
module Auth {
  import opened Base

  /** The text before the first space of `t`, or all of `t` when it has none. */
  function UpToSpace(t: string): (r: string)
    ensures |r| <= |t| && r == t[..|r|] && ' ' !in r
    ensures |r| == |t| || t[|r|] == ' '
  {
    if t == [] || t[0] == ' ' then [] else [t[0]] + UpToSpace(t[1..])
  }

  /** `h.split(' ')[1]`: the second space-separated field, absent (undefined) when `h` has no space. */
  function SecondField(h: string): (r: Option<string>)
    ensures r.None? <==> ' ' !in h
  {
    if h == [] then None
    else if h[0] == ' ' then Some(UpToSpace(h[1..]))
    else SecondField(h[1..])
  }

  /**
   * `authHeader && authHeader.split(' ')[1]`: a missing header gives no token,
   * an empty header short-circuits to the empty string.
   */
  function BearerToken(authorization: Option<string>): Option<string> {
    match authorization
    case None => None
    case Some(h) => if h == "" then Some("") else SecondField(h)
  }

  /**
   * `token === currentAdminToken`, where the admin token is null until the
   * first admin login and a missing token is undefined, never equal to null.
   */
  predicate Authorized(adminToken: Option<string>, authorization: Option<string>) {
    adminToken.Some? && BearerToken(authorization) == adminToken
  }

  /**
   * The value of `split(' ')[1]` for any header: when `k` is the position of
   * the first space, the text after it up to the next space or the end.
   */
  lemma {:induction false} SecondFieldValue(h: string, k: nat)
    requires k < |h| && h[k] == ' ' && ' ' !in h[..k]
    ensures SecondField(h) == Some(UpToSpace(h[k + 1..]))
    decreases k
  {
    if k > 0 {
      assert h[0] == h[..k][0];
      assert h[1..][..k - 1] == h[1..k];
      assert ' ' !in h[1..][..k - 1];
      SecondFieldValue(h[1..], k - 1);
      assert h[1..][k..] == h[k + 1..];
    }
  }

  /** The second field of `p t` is `t` when neither part holds a space. */
  lemma {:induction false} SecondFieldOf(p: string, t: string)
    requires ' ' !in p && ' ' !in t
    ensures SecondField(p + " " + t) == Some(t)
  {
    var h := p + " " + t;
    if p == [] {
      assert h[0] == ' ' && h[1..] == t;
      var r := UpToSpace(t);
      assert r == t;
      assert SecondField(h) == Some(UpToSpace(h[1..]));
    } else {
      assert h[0] == p[0] && h[1..] == p[1..] + " " + t;
      SecondFieldOf(p[1..], t);
    }
  }

  /** The header `Bearer <token>` passes exactly when `<token>` is the current admin token. */
  lemma BearerHeader(adminToken: Option<string>, t: string)
    requires ' ' !in t
    ensures Authorized(adminToken, Some("Bearer " + t)) <==> adminToken == Some(t)
  {
    assert "Bearer " + t == "Bearer" + " " + t;
    SecondFieldOf("Bearer", t);
  }

  /** Before the first admin login no request passes, whatever header it carries. */
  lemma NoTokenNoAccess(authorization: Option<string>)
    ensures !Authorized(None, authorization)
  {
  }
}

=== FILE: base.dfy ===
/** Optional values and success/failure replies shared by the other modules. */
module Base {

  datatype Option<+T> = None | Some(value: T)

  datatype Result<+T, +E> = Ok(value: T) | Err(error: E)
}

=== FILE: crypto.dfy ===
/**
 * The hashing helpers of server.js. PBKDF2 and SHA-256 are not modelled: they
 * are arbitrary functions of the right shape, supplied by the caller, so every
 * property proved here holds whatever those primitives compute. Only the
 * salting, hex rendering and comparison around them are modelled.
 */
module Crypto {
  import opened Text

  /** A 64-byte derived key, the output size server.js asks PBKDF2 for. */
  type Digest64 = s: seq<byte> | |s| == 64 witness seq(64, _ => 0)

  /** A SHA-256 digest. */
  type Digest32 = s: seq<byte> | |s| == 32 witness seq(32, _ => 0)

  /** PBKDF2 over (value, salt) with 10000 iterations of SHA-512. */
  type Pbkdf2 = (string, string) -> Digest64

  type Sha256 = string -> Digest32

  /** The fixed secret appended to a student id before fingerprinting it. */
  const VOTE_SALT: string := "nursa2026-salt"

  datatype SaltedHash = SaltedHash(salt: string, hash: string)

  function DeriveHex(kdf: Pbkdf2, value: string, salt: string): string {
    HexLower(kdf(value, salt))
  }

  /** `verifyHash`: recompute the derivation with the stored salt and compare. */
  function VerifyHash(kdf: Pbkdf2, value: string, salt: string, storedHash: string): bool {
    DeriveHex(kdf, value, salt) == storedHash
  }

  /**
   * `createHash`: the salt is the hex of 16 fresh random bytes (given here),
   * the hash the hex of the derived key. What it stores always verifies.
   */
  function CreateHash(kdf: Pbkdf2, value: string, saltBytes: seq<byte>): (h: SaltedHash)
    requires |saltBytes| == 16
    ensures |h.salt| == 32 && |h.hash| == 128
    ensures forall i :: 0 <= i < |h.salt| ==> IsLowerHexDigit(h.salt[i])
    ensures VerifyHash(kdf, value, h.salt, h.hash)
  {
    var salt := HexLower(saltBytes);
    SaltedHash(salt, DeriveHex(kdf, value, salt))
  }

  /** `getVoteHash`: hex SHA-256 of the student id followed by the vote salt. */
  function VoteHash(sha: Sha256, studentId: string): (h: string)
    ensures |h| == 64
    ensures forall i :: 0 <= i < |h| ==> IsLowerHexDigit(h[i])
  {
    HexLower(sha(studentId + VOTE_SALT))
  }
}

=== FILE: csv.dfy ===
/** The admin CSV export of the ballot ledger. */
module Csv {
  import opened Ledger

  const HEADER_LINE: string :=
    "President" + "," + "VicePresident" + "," + "Secretary" + "," + "Timestamp" + "," + "ReferenceCode"
  const HEADER: string := HEADER_LINE + "\n"
  const NO_VOTES: string := "No votes recorded.\n"

  /** A field in double quotes; quotes inside the field are not escaped. */
  function Quote(s: string): string {
    "\"" + s + "\""
  }

  function Row(b: Ballot): string {
    Quote(b.president) + "," + Quote(b.vicepresident) + "," + Quote(b.secretary) + ","
    + Quote(b.timestamp) + "," + Quote(b.refCode) + "\n"
  }

  /** The rows appended to the header, one per ballot, in ledger order. */
  function Rows(vs: seq<Ballot>): string {
    if vs == [] then "" else Rows(vs[..|vs| - 1]) + Row(vs[|vs| - 1])
  }

  /** The export body: a fixed notice for an empty ledger, else the header and the rows. */
  function ExportText(vs: seq<Ballot>): (r: string)
    ensures r == NO_VOTES <==> vs == []
    ensures vs != [] ==> |r| > |HEADER| && r[..|HEADER|] == HEADER
  {
    if vs == [] then NO_VOTES
    else
      var r := HEADER + Rows(vs);
      assert r[..|HEADER|] == HEADER;
      assert r[0] == HEADER[0] == 'P';
      assert NO_VOTES[0] == 'N';
      r
  }

  /** The number of line breaks in a text. */
  function Newlines(s: string): nat {
    if s == [] then 0 else (if s[0] == '\n' then 1 else 0) + Newlines(s[1..])
  }

  lemma {:induction false} NewlinesConcat(a: string, b: string)
    ensures Newlines(a + b) == Newlines(a) + Newlines(b)
  {
    if a == [] {
      assert a + b == b;
    } else {
      assert (a + b)[1..] == a[1..] + b;
      NewlinesConcat(a[1..], b);
    }
  }

  lemma {:induction false} NoNewlines(s: string)
    requires '\n' !in s
    ensures Newlines(s) == 0
  {
    if s != [] {
      NoNewlines(s[1..]);
    }
  }

  predicate SingleLine(b: Ballot) {
    '\n' !in b.president && '\n' !in b.vicepresident && '\n' !in b.secretary
    && '\n' !in b.timestamp && '\n' !in b.refCode
  }

  /** Exporting a longer ledger extends the rows of the shorter one: ledger order is kept. */
  lemma {:induction false} RowsAppend(a: seq<Ballot>, b: seq<Ballot>)
    ensures Rows(a + b) == Rows(a) + Rows(b)
  {
    if b != [] {
      var ab := a + b;
      assert ab[..|ab| - 1] == a + b[..|b| - 1];
      assert ab[|ab| - 1] == b[|b| - 1];
      RowsAppend(a, b[..|b| - 1]);
    } else {
      assert a + b == a;
    }
  }

  /**
   * Accepting one more ballot adds exactly its row at the end of the export;
   * the first ballot turns the notice into the header followed by its row.
   */
  lemma ExportAppend(vs: seq<Ballot>, b: Ballot)
    ensures ExportText(vs + [b]) == (if vs == [] then HEADER else ExportText(vs)) + Row(b)
  {
    var ext := vs + [b];
    assert ext[..|ext| - 1] == vs && ext[|ext| - 1] == b;
    assert Rows(ext) == Rows(vs) + Row(b);
    if vs == [] {
      assert Rows(ext) == Row(b);
    } else {
      assert ExportText(vs) == HEADER + Rows(vs);
    }
  }

  /** A row's line breaks are its fields' plus the one that ends it. */
  lemma RowNewlines(b: Ballot)
    ensures Newlines(Row(b)) == 1 + Newlines(b.president) + Newlines(b.vicepresident)
      + Newlines(b.secretary) + Newlines(b.timestamp) + Newlines(b.refCode)
  {
    var q1, q2, q3, q4, q5 := Quote(b.president), Quote(b.vicepresident), Quote(b.secretary),
      Quote(b.timestamp), Quote(b.refCode);
    QuoteNewlines(b.president);
    QuoteNewlines(b.vicepresident);
    QuoteNewlines(b.secretary);
    QuoteNewlines(b.timestamp);
    QuoteNewlines(b.refCode);
    NoNewlines(",");
    NewlinesConcat(q1, ",");
    NewlinesConcat(q1 + ",", q2);
    NewlinesConcat(q1 + "," + q2, ",");
    NewlinesConcat(q1 + "," + q2 + ",", q3);
    NewlinesConcat(q1 + "," + q2 + "," + q3, ",");
    NewlinesConcat(q1 + "," + q2 + "," + q3 + ",", q4);
    NewlinesConcat(q1 + "," + q2 + "," + q3 + "," + q4, ",");
    NewlinesConcat(q1 + "," + q2 + "," + q3 + "," + q4 + ",", q5);
    NewlinesConcat(q1 + "," + q2 + "," + q3 + "," + q4 + "," + q5, "\n");
  }

  lemma QuoteNewlines(s: string)
    ensures Newlines(Quote(s)) == Newlines(s)
  {
    NoNewlines("\"");
    NewlinesConcat("\"", s);
    NewlinesConcat("\"" + s, "\"");
  }

  /** When no field holds a line break, each ballot adds exactly one line. */
  lemma {:induction false} RowsNewlines(vs: seq<Ballot>)
    requires forall i :: 0 <= i < |vs| ==> SingleLine(vs[i])
    ensures Newlines(Rows(vs)) == |vs|
  {
    if vs != [] {
      var init, b := vs[..|vs| - 1], vs[|vs| - 1];
      RowsNewlines(init);
      assert SingleLine(b);
      NoNewlines(b.president);
      NoNewlines(b.vicepresident);
      NoNewlines(b.secretary);
      NoNewlines(b.timestamp);
      NoNewlines(b.refCode);
      RowNewlines(b);
      NewlinesConcat(Rows(init), Row(b));
    }
  }

  lemma HeaderLineSingle()
    ensures '\n' !in HEADER_LINE
  {
  }

  lemma HeaderNewlines()
    ensures Newlines(HEADER) == 1
  {
    HeaderLineSingle();
    NoNewlines(HEADER_LINE);
    NewlinesConcat(HEADER_LINE, "\n");
  }

  /** A non-empty export has the header line and one line per ballot. */
  lemma ExportNewlines(vs: seq<Ballot>)
    requires vs != []
    requires forall i :: 0 <= i < |vs| ==> SingleLine(vs[i])
    ensures Newlines(ExportText(vs)) == |vs| + 1
  {
    var rows := Rows(vs);
    assert ExportText(vs) == HEADER + rows;
    RowsNewlines(vs);
    HeaderNewlines();
    NewlinesConcat(HEADER, rows);
  }

  /**
   * Fields are not escaped: when any field of a newly accepted ballot holds a
   * line break, its row adds at least two line breaks to the export instead of
   * the one that ends a row, so the ballot spreads over several lines.
   */
  lemma ExportUnescaped(vs: seq<Ballot>, b: Ballot)
    requires !SingleLine(b)
    ensures Newlines(ExportText(vs + [b]))
      >= Newlines(if vs == [] then HEADER else ExportText(vs)) + 2
  {
    var before := if vs == [] then HEADER else ExportText(vs);
    ExportAppend(vs, b);
    NewlinesConcat(before, Row(b));
    RowNewlines(b);
    if '\n' in b.president { SomeNewline(b.president); }
    if '\n' in b.vicepresident { SomeNewline(b.vicepresident); }
    if '\n' in b.secretary { SomeNewline(b.secretary); }
    if '\n' in b.timestamp { SomeNewline(b.timestamp); }
    if '\n' in b.refCode { SomeNewline(b.refCode); }
  }

  lemma {:induction false} SomeNewline(s: string)
    requires '\n' in s
    ensures Newlines(s) > 0
  {
    if s[0] != '\n' {
      SomeNewline(s[1..]);
    }
  }
}

=== FILE: election.dfy ===
/**
 * The election state machine behind the HTTP routes of server.js. Each route
 * handler is synchronous, so each request is one atomic transition of a
 * `State`: the student registry, the ballot ledger with its voted
 * fingerprints, the voting window and the admin bearer token. A handler is a
 * function from the state before the request (and the request's inputs) to the
 * state after it and the reply.
 */
module Election {
  import opened Base
  import opened Text
  import opened Crypto
  import opened Registry
  import opened Ledger
  import opened Auth
  import Csv

  const ADMIN_PASSWORD: string := "nursa2026"

  /** `new Date('2030-12-31').getTime()`: midnight UTC, in milliseconds since the epoch. */
  const OPEN_UNTIL: int := 1924905600000

  /** How far before the current instant open-voting starts, and close-voting ends, the window. */
  const MARGIN: int := 1000

  /** The failure replies, one per distinct message or status of the routes. */
  datatype Error =
    | RegistrationIncomplete   // "All fields required and passwords must match"
    | AlreadyRegistered        // "Student ID already registered"
    | LoginIncomplete          // "Access ID and password required"
    | UnknownAccessId          // "Invalid Access ID or not registered"
    | IncorrectPassword        // "Incorrect password" (student and admin login)
    | VotingClosed             // "Voting period is not open!"
    | AlreadyVoted             // "You have already voted!"
    | Unauthorized             // status 401 from requireAdmin
    | MissingDates             // status 400 from set-period

  type Reply<T> = Result<T, Error>

  /** What the routes call but whose insides are not modelled: the two hash primitives and `new Date(text).getTime()`. */
  datatype Primitives = Primitives(pbkdf2: Pbkdf2, sha256: Sha256, parseDate: string -> int)

  datatype State = State(
    students: seq<Student>,
    votes: seq<Ballot>,
    votedHashes: seq<string>,
    votingStart: int,
    votingEnd: int,
    adminToken: Option<string>)

  /** The state after a request and the reply to it. */
  datatype Step<T> = Step(next: State, reply: Reply<T>)

  /** The body of a registration request; an empty field stands for a missing one. */
  datatype RegisterForm = RegisterForm(
    studentId: string,
    password: string,
    confirmPassword: string,
    question: string,
    answer: string)
  {
    predicate Complete() {
      studentId != "" && password != "" && password == confirmPassword && question != "" && answer != ""
    }
  }

  /** The random bytes a registration draws: access id, recovery code, and the two salts. */
  datatype RegisterEntropy = RegisterEntropy(
    accessBytes: seq<byte>,
    recoveryBytes: seq<byte>,
    passwordSalt: seq<byte>,
    answerSalt: seq<byte>)
  {
    predicate WellFormed() {
      |accessBytes| == 8 && |recoveryBytes| == 10 && |passwordSalt| == 16 && |answerSalt| == 16
    }
  }

  datatype Credentials = Credentials(accessId: string, recoveryCode: string)

  datatype Identity = Identity(id: string, name: string, accessId: string)

  /** The body of a vote request; the student id may be missing altogether. */
  datatype BallotForm = BallotForm(
    studentId: Option<string>,
    president: string,
    vicepresident: string,
    secretary: string)

  datatype Status = Status(isOpen: bool, start: int, end: int)

  // ---------------------------------------------------------------- invariant

  predicate HashesDistinct(hs: seq<string>) {
    forall i, j :: 0 <= i < j < |hs| ==> hs[i] != hs[j]
  }

  /**
   * What every reachable state satisfies: student ids are pairwise distinct,
   * every record is fully registered, there is one voted fingerprint per ballot
   * and no fingerprint twice.
   */
  predicate Inv(s: State) {
    IdsDistinct(s.students)
    && (forall st :: st in s.students ==> FullyRegistered(st))
    && |s.votes| == |s.votedHashes|
    && HashesDistinct(s.votedHashes)
  }

  /** The state at start-up: empty registry and ledger, no admin token, the configured window. */
  function Initial(start: int, end: int): (s: State)
    ensures Inv(s)
    ensures s.students == [] && s.votes == [] && s.votedHashes == [] && s.adminToken == None
    ensures s.votingStart == start && s.votingEnd == end
  {
    State([], [], [], start, end, None)
  }

  // ---------------------------------------------------------------- register

  /** The state after a successful registration: one record appended, it verifies the secrets it was given. */
  predicate Enrolled(s: State, s': State, kdf: Pbkdf2, f: RegisterForm, c: Credentials) {
    s' == s.(students := s'.students)
    && |s'.students| == |s.students| + 1
    && s'.students[..|s.students|] == s.students
    && var st := s'.students[|s.students|];
       st.id == NormalizeStudentId(f.studentId)
       && st.name == "Student " + st.id
       && st.accessId == c.accessId
       && st.recoveryCode == c.recoveryCode
       && st.securityQuestion == f.question
       && FullyRegistered(st)
       && VerifyHash(kdf, f.password, st.passwordSalt, st.passwordHash)
       && VerifyHash(kdf, Trim(Lower(f.answer)), st.securityAnswerSalt, st.securityAnswerHash)
  }

  /** POST /api/register. */
  function Register(s: State, kdf: Pbkdf2, f: RegisterForm, e: RegisterEntropy): (out: Step<Credentials>)
    requires e.WellFormed()
    ensures out.reply == Err(RegistrationIncomplete) <==> !f.Complete()
    ensures out.reply == Err(AlreadyRegistered) <==>
      f.Complete() && IdTaken(s.students, NormalizeStudentId(f.studentId))
    ensures out.reply.Ok? <==> f.Complete() && !IdTaken(s.students, NormalizeStudentId(f.studentId))
    ensures out.reply.Err? ==> out.next == s
    ensures out.reply.Ok? ==> Enrolled(s, out.next, kdf, f, out.reply.value)
    ensures out.reply.Ok? ==> out.reply.value.accessId == AccessIdFrom(e.accessBytes)
    ensures out.reply.Ok? ==> out.reply.value.recoveryCode == RecoveryCodeFrom(e.recoveryBytes)
    ensures Inv(s) ==> Inv(out.next)
  {
    if !f.Complete() then Step(s, Err(RegistrationIncomplete))
    else
      var upperId := NormalizeStudentId(f.studentId);
      if IdTaken(s.students, upperId) then Step(s, Err(AlreadyRegistered))
      else
        var st := NewRecord(kdf, f, e, upperId);
        var s' := s.(students := s.students + [st]);
        assert s'.students[..|s.students|] == s.students;
        assert Inv(s) ==> IdsDistinct(s'.students) by {
          if Inv(s) { AppendFreshId(s.students, st); }
        }
        Step(s', Ok(Credentials(st.accessId, st.recoveryCode)))
  }

  /** The record a successful registration appends: fresh credentials, both secrets hashed. */
  function NewRecord(kdf: Pbkdf2, f: RegisterForm, e: RegisterEntropy, upperId: string): (st: Student)
    requires e.WellFormed()
    ensures st.id == upperId && st.name == "Student " + upperId && st.accessId == AccessIdFrom(e.accessBytes)
    ensures st.recoveryCode == RecoveryCodeFrom(e.recoveryBytes) && st.securityQuestion == f.question
    ensures FullyRegistered(st)
    ensures VerifyHash(kdf, f.password, st.passwordSalt, st.passwordHash)
    ensures VerifyHash(kdf, Trim(Lower(f.answer)), st.securityAnswerSalt, st.securityAnswerHash)
  {
    var pw := CreateHash(kdf, f.password, e.passwordSalt);
    var ans := CreateHash(kdf, Trim(Lower(f.answer)), e.answerSalt);
    Student(upperId, "Student " + upperId, AccessIdFrom(e.accessBytes), RecoveryCodeFrom(e.recoveryBytes),
      pw.salt, pw.hash, f.question, ans.salt, ans.hash)
  }

  /** Appending a record whose id is not yet taken keeps the ids distinct. */
  lemma AppendFreshId(students: seq<Student>, st: Student)
    requires IdsDistinct(students) && !IdTaken(students, st.id)
    ensures IdsDistinct(students + [st])
  {
    forall i | 0 <= i < |students| ensures students[i].id != st.id {
      assert students[i] in students;
    }
  }

  // ---------------------------------------------------------------- login

  function DisplayName(st: Student): string {
    if st.name == "" then "Student" else st.name
  }

  /** Index `i` holds the first record whose access id is `key`. */
  predicate FirstWithAccessId(students: seq<Student>, key: string, i: int) {
    0 <= i < |students| && students[i].accessId == key
    && forall j :: 0 <= j < i ==> students[j].accessId != key
  }

  /**
   * The reply for a login that found record `st`: unknown when the record has
   * no password hash or salt, else the identity when the password verifies,
   * else an incorrect password.
   */
  function LoginAt(st: Student, kdf: Pbkdf2, password: string): Reply<Identity> {
    if st.passwordHash == "" || st.passwordSalt == "" then Err(UnknownAccessId)
    else if VerifyHash(kdf, password, st.passwordSalt, st.passwordHash) then
      Ok(Identity(st.id, DisplayName(st), st.accessId))
    else Err(IncorrectPassword)
  }

  /** POST /api/login: read-only; looks up the first record with the normalised access id. */
  function Login(s: State, kdf: Pbkdf2, accessId: string, password: string): (r: Reply<Identity>)
    ensures r == Err(LoginIncomplete) <==> accessId == "" || password == ""
    ensures r.Ok? ==>
      exists i ::
        && 0 <= i < |s.students|
        && s.students[i].accessId == NormalizeAccessId(accessId)
        && VerifyHash(kdf, password, s.students[i].passwordSalt, s.students[i].passwordHash)
        && r.value == Identity(s.students[i].id, DisplayName(s.students[i]), s.students[i].accessId)
    ensures r == Err(IncorrectPassword) ==>
      exists i ::
        && 0 <= i < |s.students|
        && s.students[i].accessId == NormalizeAccessId(accessId)
        && !VerifyHash(kdf, password, s.students[i].passwordSalt, s.students[i].passwordHash)
    ensures accessId != "" && password != ""
      && (forall i :: 0 <= i < |s.students| ==> s.students[i].accessId != NormalizeAccessId(accessId))
      ==> r == Err(UnknownAccessId)
    ensures forall i ::
      && accessId != "" && password != ""
      && FirstWithAccessId(s.students, NormalizeAccessId(accessId), i)
      ==> r == LoginAt(s.students[i], kdf, password)
  {
    if accessId == "" || password == "" then Err(LoginIncomplete)
    else
      match FindByAccessId(s.students, NormalizeAccessId(accessId))
      case None => Err(UnknownAccessId)
      case Some(i) => LoginAt(s.students[i], kdf, password)
  }

  /**
   * On a state satisfying the invariant, a complete login request is decided by
   * the first record holding the normalised access id: it succeeds with that
   * record's identity exactly when the password verifies, and is otherwise
   * refused as an incorrect password.
   */
  lemma LoginFirstMatch(s: State, kdf: Pbkdf2, accessId: string, password: string, i: int)
    requires Inv(s) && accessId != "" && password != ""
    requires FirstWithAccessId(s.students, NormalizeAccessId(accessId), i)
    ensures var st := s.students[i];
      (Login(s, kdf, accessId, password) == Ok(Identity(st.id, DisplayName(st), st.accessId)))
        <==> VerifyHash(kdf, password, st.passwordSalt, st.passwordHash)
    ensures !VerifyHash(kdf, password, s.students[i].passwordSalt, s.students[i].passwordHash) ==>
      Login(s, kdf, accessId, password) == Err(IncorrectPassword)
  {
    assert s.students[i] in s.students;
  }

  /**
   * A registration leaves every other login's outcome as it was: a login whose
   * normalised access id is not the one just issued gets the same reply before
   * and after.
   */
  lemma LoginSurvivesRegister(s: State, kdf: Pbkdf2, f: RegisterForm, e: RegisterEntropy,
                              accessId: string, password: string)
    requires e.WellFormed() && Register(s, kdf, f, e).reply.Ok?
    requires NormalizeAccessId(accessId) != AccessIdFrom(e.accessBytes)
    ensures Login(Register(s, kdf, f, e).next, kdf, accessId, password) == Login(s, kdf, accessId, password)
  {
    var s' := Register(s, kdf, f, e).next;
    var key := NormalizeAccessId(accessId);
    var n := |s.students|;
    assert s'.students[n].accessId != key;
    if accessId != "" && password != "" {
      match FindByAccessId(s.students, key)
      case Some(i) =>
        assert s'.students[i] == s.students[i];
        assert FirstWithAccessId(s.students, key, i);
        assert FirstWithAccessId(s'.students, key, i);
      case None =>
        forall j | 0 <= j < |s'.students| ensures s'.students[j].accessId != key {
          if j < n { assert s'.students[j] == s.students[j]; }
        }
    }
  }

  /**
   * Registering and then logging in with the issued access id and the same
   * password succeeds and names the new record, provided no earlier record
   * already held that access id.
   */
  lemma RegisterThenLogin(s: State, kdf: Pbkdf2, f: RegisterForm, e: RegisterEntropy, id: string)
    requires e.WellFormed() && id == NormalizeStudentId(f.studentId)
    requires Register(s, kdf, f, e).reply.Ok?
    requires forall i :: 0 <= i < |s.students| ==> s.students[i].accessId != AccessIdFrom(e.accessBytes)
    ensures var out := Register(s, kdf, f, e);
      Login(out.next, kdf, out.reply.value.accessId, f.password)
        == Ok(Identity(id, "Student " + id, out.reply.value.accessId))
  {
    var out := Register(s, kdf, f, e);
    var a := out.reply.value.accessId;
    var n := |s.students|;
    var st := out.next.students[n];
    assert st.id == id && st.name == "Student " + id && st.accessId == a;
    assert FullyRegistered(st) && VerifyHash(kdf, f.password, st.passwordSalt, st.passwordHash);
    assert NormalizeAccessId(a) == a && a != "" && f.password != "";
    assert FirstWithAccessId(out.next.students, a, n) by {
      forall j | 0 <= j < n ensures out.next.students[j].accessId != a {
        assert out.next.students[j] == s.students[j];
      }
    }
    assert LoginAt(st, kdf, f.password) == Ok(Identity(id, "Student " + id, a));
  }

  // ---------------------------------------------------------------- vote

  /** GET /api/voting-status. */
  function VotingStatus(s: State, now: int): Status {
    Status(now >= s.votingStart && now <= s.votingEnd, s.votingStart, s.votingEnd)
  }

  /** The text fingerprinted: a missing student id is concatenated as "undefined". */
  function FingerprintSource(studentId: Option<string>): string {
    match studentId
    case None => "undefined"
    case Some(id) => id
  }

  function Fingerprint(sha: Sha256, studentId: Option<string>): string {
    VoteHash(sha, FingerprintSource(studentId))
  }

  /** The state after a ballot is accepted: the ballot and its fingerprint appended, nothing else changed. */
  predicate Recorded(s: State, s': State, fp: string, b: Ballot) {
    s'.votes == s.votes + [b]
    && s'.votedHashes == s.votedHashes + [fp]
    && s' == s.(votes := s'.votes, votedHashes := s'.votedHashes)
  }

  /** POST /api/vote: the window gate, then the fingerprint check, then the append. */
  function Vote(s: State, sha: Sha256, b: BallotForm, now: int, timestamp: string, suffix: int): (out: Step<string>)
    requires 1000 <= suffix <= 9999
    ensures out.reply == Err(VotingClosed) <==> !VotingStatus(s, now).isOpen
    ensures out.reply == Err(AlreadyVoted) <==>
      VotingStatus(s, now).isOpen && Fingerprint(sha, b.studentId) in s.votedHashes
    ensures out.reply.Ok? <==>
      VotingStatus(s, now).isOpen && Fingerprint(sha, b.studentId) !in s.votedHashes
    ensures out.reply.Err? ==> out.next == s
    ensures out.reply.Ok? ==> (out.reply.value == RefCode(suffix)
      && Recorded(s, out.next, Fingerprint(sha, b.studentId),
                  Ballot(b.president, b.vicepresident, b.secretary, timestamp, out.reply.value)))
    ensures Inv(s) ==> Inv(out.next)
  {
    if now < s.votingStart || now > s.votingEnd then Step(s, Err(VotingClosed))
    else
      var hash := Fingerprint(sha, b.studentId);
      if hash in s.votedHashes then Step(s, Err(AlreadyVoted))
      else
        var refCode := RefCode(suffix);
        var ballot := Ballot(b.president, b.vicepresident, b.secretary, timestamp, refCode);
        Step(s.(votes := s.votes + [ballot], votedHashes := s.votedHashes + [hash]), Ok(refCode))
  }

  /**
   * Once a student id has voted, every later vote with the same id is refused:
   * as closed when the window is shut at that instant, otherwise as already voted.
   */
  lemma VoteOnce(s: State, sha: Sha256, b: BallotForm, now: int, t: string, k: int,
                 b': BallotForm, now': int, t': string, k': int)
    requires 1000 <= k <= 9999 && 1000 <= k' <= 9999
    requires Vote(s, sha, b, now, t, k).reply.Ok?
    requires b'.studentId == b.studentId
    ensures var s' := Vote(s, sha, b, now, t, k).next;
      Vote(s', sha, b', now', t', k').reply
        == if VotingStatus(s', now').isOpen then Err(AlreadyVoted) else Err(VotingClosed)
  {
    var s' := Vote(s, sha, b, now, t, k).next;
    assert Fingerprint(sha, b.studentId) in s'.votedHashes;
  }

  // ---------------------------------------------------------------- admin

  /** POST /api/admin/login: the right password replaces the token with the hex of 32 fresh bytes. */
  function AdminLogin(s: State, password: string, tokenBytes: seq<byte>): (out: Step<string>)
    requires |tokenBytes| == 32
    ensures password != ADMIN_PASSWORD ==> out == Step(s, Err(IncorrectPassword))
    ensures password == ADMIN_PASSWORD ==>
      out.reply.Ok? && |out.reply.value| == 64 && out.next == s.(adminToken := Some(out.reply.value))
    ensures password == ADMIN_PASSWORD ==>
      && (forall i :: 0 <= i < |out.reply.value| ==> IsLowerHexDigit(out.reply.value[i]))
      && FromHex(out.reply.value) == tokenBytes
    ensures password == ADMIN_PASSWORD ==> forall a ::
      Authorized(out.next.adminToken, a) <==> BearerToken(a) == Some(out.reply.value)
    ensures Inv(s) ==> Inv(out.next)
  {
    if password == ADMIN_PASSWORD then
      var token := HexLower(tokenBytes);
      FromHexLower(tokenBytes);
      Step(s.(adminToken := Some(token)), Ok(token))
    else Step(s, Err(IncorrectPassword))
  }

  /**
   * After an admin login the header carrying the new token passes and one
   * carrying the previous token, if different, no longer does.
   */
  lemma AdminLoginRevokes(s: State, tokenBytes: seq<byte>, previous: string)
    requires |tokenBytes| == 32 && ' ' !in previous
    ensures var out := AdminLogin(s, ADMIN_PASSWORD, tokenBytes);
      Authorized(out.next.adminToken, Some("Bearer " + out.reply.value))
      && (previous != out.reply.value ==> !Authorized(out.next.adminToken, Some("Bearer " + previous)))
  {
    var out := AdminLogin(s, ADMIN_PASSWORD, tokenBytes);
    var token := out.reply.value;
    assert ' ' !in token;
    BearerHeader(out.next.adminToken, token);
    BearerHeader(out.next.adminToken, previous);
  }

  /** POST /api/admin/set-period. */
  function SetPeriod(s: State, parseDate: string -> int, authorization: Option<string>, start: string, end: string): (out: Step<()>)
    ensures !Authorized(s.adminToken, authorization) ==> out == Step(s, Err(Unauthorized))
    ensures Authorized(s.adminToken, authorization) && (start == "" || end == "") ==>
      out == Step(s, Err(MissingDates))
    ensures Authorized(s.adminToken, authorization) && start != "" && end != "" ==>
      out.reply.Ok? && out.next == s.(votingStart := parseDate(start), votingEnd := parseDate(end))
    ensures Inv(s) ==> Inv(out.next)
  {
    if !Authorized(s.adminToken, authorization) then Step(s, Err(Unauthorized))
    else if start == "" || end == "" then Step(s, Err(MissingDates))
    else Step(s.(votingStart := parseDate(start), votingEnd := parseDate(end)), Ok(()))
  }

  /** POST /api/open-voting: the window opens just before now and runs to the 2030 sentinel. */
  function OpenVoting(s: State, authorization: Option<string>, now: int): (out: Step<()>)
    ensures !Authorized(s.adminToken, authorization) ==> out == Step(s, Err(Unauthorized))
    ensures Authorized(s.adminToken, authorization) ==>
      out.reply.Ok? && out.next == s.(votingStart := now - MARGIN, votingEnd := OPEN_UNTIL)
    ensures Authorized(s.adminToken, authorization) ==>
      (VotingStatus(out.next, now).isOpen <==> now <= OPEN_UNTIL)
    ensures Inv(s) ==> Inv(out.next)
  {
    if !Authorized(s.adminToken, authorization) then Step(s, Err(Unauthorized))
    else Step(s.(votingStart := now - MARGIN, votingEnd := OPEN_UNTIL), Ok(()))
  }

  /** POST /api/close-voting: only the end moves, to just before now, so the window is shut from now on. */
  function CloseVoting(s: State, authorization: Option<string>, now: int): (out: Step<()>)
    ensures !Authorized(s.adminToken, authorization) ==> out == Step(s, Err(Unauthorized))
    ensures Authorized(s.adminToken, authorization) ==>
      out.reply.Ok? && out.next == s.(votingEnd := now - MARGIN)
    ensures Authorized(s.adminToken, authorization) ==>
      forall t :: t >= now ==> !VotingStatus(out.next, t).isOpen
    ensures Inv(s) ==> Inv(out.next)
  {
    if !Authorized(s.adminToken, authorization) then Step(s, Err(Unauthorized))
    else Step(s.(votingEnd := now - MARGIN), Ok(()))
  }

  /** POST /api/reset: empties the ledger, keeps the registry, window and token. */
  function Reset(s: State, authorization: Option<string>): (out: Step<()>)
    ensures !Authorized(s.adminToken, authorization) ==> out == Step(s, Err(Unauthorized))
    ensures Authorized(s.adminToken, authorization) ==>
      out.reply.Ok? && out.next == s.(votes := [], votedHashes := [])
    ensures Inv(s) ==> Inv(out.next)
  {
    if !Authorized(s.adminToken, authorization) then Step(s, Err(Unauthorized))
    else Step(s.(votes := [], votedHashes := []), Ok(()))
  }

  /** GET /api/export-votes: read-only. */
  function ExportVotes(s: State, authorization: Option<string>): (r: Reply<string>)
    ensures !Authorized(s.adminToken, authorization) ==> r == Err(Unauthorized)
    ensures Authorized(s.adminToken, authorization) ==> r == Ok(Csv.ExportText(s.votes))
    ensures Authorized(s.adminToken, authorization) ==> r.Ok? && (r.value == Csv.NO_VOTES <==> s.votes == [])
  {
    if !Authorized(s.adminToken, authorization) then Err(Unauthorized)
    else Ok(Csv.ExportText(s.votes))
  }
}

=== FILE: ledger.dfy ===
/**
 * The ballot ledger's values: a ballot, its reference code, and the per-office
 * tally the results endpoint reports.
 */
module Ledger {
  import opened Text

  /** One recorded ballot. An empty selection stands for a missing one. */
  datatype Ballot = Ballot(
    president: string,
    vicepresident: string,
    secretary: string,
    timestamp: string,
    refCode: string)

  const REF_PREFIX: string := "NM-2026-"

  /**
   * The reference code: the prefix followed by the random suffix, an integer in
   * 1000..9999 (`Math.floor(1000 + Math.random() * 9000)`). It is always four
   * digits long and the suffix can be read back from it.
   */
  function RefCode(suffix: int): (r: string)
    requires 1000 <= suffix <= 9999
    ensures |r| == 12 && r[..8] == REF_PREFIX
    ensures forall i :: 8 <= i < 12 ==> IsDigit(r[i])
    ensures ParseDecimal(r[8..]) == suffix
  {
    assert Pow10(4) == 10 * Pow10(3) == 100 * Pow10(2) == 1000 * Pow10(1) == 10000;
    DecimalLength(suffix, 4);
    ParseDecimalOf(suffix);
    var r := REF_PREFIX + Decimal(suffix);
    assert r[8..] == Decimal(suffix);
    r
  }

  // ---------------------------------------------------------------- tally

  datatype Office = President | VicePresident | Secretary

  function Pick(b: Ballot, o: Office): string {
    match o
    case President => b.president
    case VicePresident => b.vicepresident
    case Secretary => b.secretary
  }

  function Candidates(o: Office): set<string> {
    match o
    case President => {"Sarah Johnson", "John Davis"}
    case VicePresident => {"Michael Chen", "Lisa Williams"}
    case Secretary => {"Emily Brown", "Robert Garcia"}
  }

  /** A JavaScript counter: a number, or NaN once `undefined++` has been evaluated. */
  datatype Count = N(n: nat) | NaN

  /** The count each office starts from: zero for each listed candidate. */
  function InitialCounts(o: Office): map<string, Count> {
    map c | c in Candidates(o) :: N(0)
  }

  /** `counts[name]++`: a missing entry reads as undefined and becomes NaN. */
  function Bump(m: map<string, Count>, name: string): map<string, Count> {
    m[name := if name in m && m[name].N? then N(m[name].n + 1) else NaN]
  }

  /** The office's counts after folding the ballots in ledger order, skipping empty selections. */
  function TallyOffice(vs: seq<Ballot>, o: Office): map<string, Count> {
    if vs == [] then InitialCounts(o)
    else
      var m := TallyOffice(vs[..|vs| - 1], o);
      var name := Pick(vs[|vs| - 1], o);
      if name == "" then m else Bump(m, name)
  }

  /** How many ballots select `name` for office `o`. */
  function VotesFor(vs: seq<Ballot>, o: Office, name: string): nat {
    if vs == [] then 0
    else VotesFor(vs[..|vs| - 1], o, name) + (if Pick(vs[|vs| - 1], o) == name then 1 else 0)
  }

  /** A listed candidate's count is exactly the number of ballots naming them. */
  lemma {:induction false} TallyKnown(vs: seq<Ballot>, o: Office, c: string)
    requires c in Candidates(o)
    ensures c in TallyOffice(vs, o) && TallyOffice(vs, o)[c] == N(VotesFor(vs, o, c))
  {
    if vs != [] {
      TallyKnown(vs[..|vs| - 1], o, c);
    }
  }

  /**
   * A name that is not listed appears in the counts exactly when some ballot
   * selects it, and then its count is NaN.
   */
  lemma {:induction false} TallyUnknown(vs: seq<Ballot>, o: Office, name: string)
    requires name !in Candidates(o)
    ensures name in TallyOffice(vs, o) <==> name != "" && VotesFor(vs, o, name) > 0
    ensures name in TallyOffice(vs, o) ==> TallyOffice(vs, o)[name] == NaN
  {
    if vs != [] {
      TallyUnknown(vs[..|vs| - 1], o, name);
    }
  }

  datatype Counts = Counts(
    president: map<string, Count>,
    vicepresident: map<string, Count>,
    secretary: map<string, Count>)

  datatype Report = Report(counts: Counts, total: nat)

  function Tally(vs: seq<Ballot>): Counts {
    Counts(TallyOffice(vs, President), TallyOffice(vs, VicePresident), TallyOffice(vs, Secretary))
  }

  /** The results endpoint's answer for a ledger. */
  function Results(vs: seq<Ballot>): (r: Report)
    ensures r.total == |vs|
    ensures forall c :: c in Candidates(President) ==>
      c in r.counts.president && r.counts.president[c] == N(VotesFor(vs, President, c))
    ensures forall c :: c in Candidates(VicePresident) ==>
      c in r.counts.vicepresident && r.counts.vicepresident[c] == N(VotesFor(vs, VicePresident, c))
    ensures forall c :: c in Candidates(Secretary) ==>
      c in r.counts.secretary && r.counts.secretary[c] == N(VotesFor(vs, Secretary, c))
  {
    forall o, c | c in Candidates(o) ensures c in TallyOffice(vs, o) && TallyOffice(vs, o)[c] == N(VotesFor(vs, o, c)) {
      TallyKnown(vs, o, c);
    }
    Report(Tally(vs), |vs|)
  }
}

=== FILE: registry.dfy ===
/** The student registry: its records, id normalisation and look-up by access id. */
module Registry {
  import opened Base
  import opened Text

  datatype Student = Student(
    id: string,
    name: string,
    accessId: string,
    recoveryCode: string,
    passwordSalt: string,
    passwordHash: string,
    securityQuestion: string,
    securityAnswerSalt: string,
    securityAnswerHash: string)

  const ACCESS_PREFIX: string := "ACCESS-"

  /** Every credential field a registration writes is present. */
  predicate FullyRegistered(st: Student) {
    st.passwordSalt != "" && st.passwordHash != ""
    && st.securityAnswerSalt != "" && st.securityAnswerHash != ""
  }

  predicate IdsDistinct(students: seq<Student>) {
    forall i, j :: 0 <= i < j < |students| ==> students[i].id != students[j].id
  }

  /** Some record already holds this id (`find(s => s.id === upperId)` is truthy). */
  predicate IdTaken(students: seq<Student>, id: string) {
    exists st :: st in students && st.id == id
  }

  /** Register's normalisation: `studentId.toUpperCase().trim()`. */
  function NormalizeStudentId(raw: string): string {
    Trim(Upper(raw))
  }

  /** Login's normalisation: `accessId.trim().toUpperCase()`. */
  function NormalizeAccessId(raw: string): string {
    Upper(Trim(raw))
  }

  /**
   * The access id issued at registration: the prefix and the upper-cased hex of
   * 8 random bytes. It is already in the form login normalises to.
   */
  function AccessIdFrom(bytes: seq<byte>): (a: string)
    requires |bytes| == 8
    ensures |a| == 23 && a[..7] == ACCESS_PREFIX
    ensures forall i :: 7 <= i < |a| ==> IsUpperHexDigit(a[i])
    ensures NormalizeAccessId(a) == a
  {
    var u := Upper(HexLower(bytes));
    var a := ACCESS_PREFIX + u;
    AccessIdIsNormal(bytes, a);
    UpperHex(HexLower(bytes));
    assert forall i :: 7 <= i < |a| ==> a[i] == u[i - 7];
    a
  }

  lemma AccessIdIsNormal(bytes: seq<byte>, a: string)
    requires |bytes| == 8 && a == ACCESS_PREFIX + Upper(HexLower(bytes))
    ensures |a| == 23 && a[..7] == ACCESS_PREFIX
    ensures NormalizeAccessId(a) == a
  {
    var p := ACCESS_PREFIX;
    assert |p| == 7 && p[0] == 'A';
    assert NoLowerAscii(p) by {
      forall i | 0 <= i < |p| ensures !IsAsciiLower(p[i]) { }
    }
    HexPrefixedIsNormal(p, HexLower(bytes));
    assert a[..7] == p;
  }

  /**
   * Text that starts with a non-blank and has no lower-case letter, followed
   * by upper-cased hex digits, is left unchanged by login's normalisation.
   */
  lemma HexPrefixedIsNormal(p: string, h: string)
    requires p != [] && !IsWhitespace(p[0]) && NoLowerAscii(p)
    requires h != [] && forall i :: 0 <= i < |h| ==> IsLowerHexDigit(h[i])
    ensures NormalizeAccessId(p + Upper(h)) == p + Upper(h)
  {
    var u := Upper(h);
    var a := p + u;
    assert IsLowerHexDigit(h[|h| - 1]);
    assert a[|a| - 1] == u[|u| - 1] == UpperChar(h[|h| - 1]);
    assert a[0] == p[0];
    TrimKeeps(a);
    UpperNormalizes(h);
    NoLowerConcat(p, u);
    UpperNormalizes(a);
  }

  lemma NoLowerConcat(x: string, y: string)
    requires NoLowerAscii(x) && NoLowerAscii(y)
    ensures NoLowerAscii(x + y)
  {
    forall i | 0 <= i < |x + y| ensures !IsAsciiLower((x + y)[i]) {
      if i >= |x| { assert (x + y)[i] == y[i - |x|]; }
    }
  }

  /** The recovery code: the upper-cased hex of 10 random bytes. */
  function RecoveryCodeFrom(bytes: seq<byte>): (r: string)
    requires |bytes| == 10
    ensures |r| == 20 && NoLowerAscii(r)
    ensures forall i :: 0 <= i < |r| ==> IsUpperHexDigit(r[i])
  {
    UpperNormalizes(HexLower(bytes));
    UpperHex(HexLower(bytes));
    Upper(HexLower(bytes))
  }

  /** `Array.prototype.find` on the access id: the index of the FIRST record holding `key`. */
  function FindByAccessId(students: seq<Student>, key: string): (r: Option<nat>)
    ensures r.Some? ==> r.value < |students| && students[r.value].accessId == key
    ensures r.Some? ==> forall j :: 0 <= j < r.value ==> students[j].accessId != key
    ensures r.None? ==> forall j :: 0 <= j < |students| ==> students[j].accessId != key
  {
    if students == [] then None
    else if students[0].accessId == key then Some(0)
    else match FindByAccessId(students[1..], key)
      case None => None
      case Some(k) => Some(k + 1)
  }
}

=== FILE: server.dfy ===
/**
 * The server process: the registry, ledger, window and token live in fields
 * that the route handlers update in place, as the module-level variables and
 * lowdb arrays of server.js are. Each handler is proved to make exactly the
 * transition its function in module Election describes.
 */
module Api {
  import opened Base
  import opened Text
  import opened Crypto
  import opened Registry
  import opened Ledger
  import opened Auth
  import Csv
  import opened Election

  class Server {
    const prims: Primitives
    var students: seq<Student>
    var votes: seq<Ballot>
    var votedHashes: seq<string>
    var votingStart: int
    var votingEnd: int
    var adminToken: Option<string>

    /** The abstract state the fields stand for. */
    ghost function Snapshot(): State
      reads this
    {
      State(students, votes, votedHashes, votingStart, votingEnd, adminToken)
    }

    ghost predicate Valid()
      reads this
    {
      Inv(Snapshot())
    }

    /** Start-up with an empty registry and ledger; the window is the configured one. */
    constructor (prims: Primitives, votingStart: int, votingEnd: int)
      ensures Valid() && this.prims == prims
      ensures Snapshot() == Initial(votingStart, votingEnd)
    {
      this.prims := prims;
      students := [];
      votes := [];
      votedHashes := [];
      this.votingStart := votingStart;
      this.votingEnd := votingEnd;
      adminToken := None;
    }

    /** `requireAdmin`: the bearer token must be the current admin token. */
    method RequireAdmin(authorization: Option<string>) returns (ok: bool)
      ensures ok == Authorized(adminToken, authorization)
    {
      var token := BearerToken(authorization);
      ok := adminToken.Some? && token == adminToken;
    }

    method Register(form: RegisterForm, entropy: RegisterEntropy) returns (r: Reply<Credentials>)
      requires Valid() && entropy.WellFormed()
      modifies this
      ensures Valid()
      ensures Snapshot() == Election.Register(old(Snapshot()), prims.pbkdf2, form, entropy).next
      ensures r == Election.Register(old(Snapshot()), prims.pbkdf2, form, entropy).reply
    {
      ghost var spec := Election.Register(Snapshot(), prims.pbkdf2, form, entropy);
      if form.studentId == "" || form.password == "" || form.password != form.confirmPassword
         || form.question == "" || form.answer == "" {
        return Err(RegistrationIncomplete);
      }
      var upperId := NormalizeStudentId(form.studentId);
      if IdTaken(students, upperId) {
        return Err(AlreadyRegistered);
      }
      assert spec.reply.Ok?;
      var accessId := AccessIdFrom(entropy.accessBytes);
      var recoveryCode := RecoveryCodeFrom(entropy.recoveryBytes);
      var pw := CreateHash(prims.pbkdf2, form.password, entropy.passwordSalt);
      var ans := CreateHash(prims.pbkdf2, Trim(Lower(form.answer)), entropy.answerSalt);
      var student := Student(upperId, "Student " + upperId, accessId, recoveryCode,
        pw.salt, pw.hash, form.question, ans.salt, ans.hash);
      students := students + [student];
      r := Ok(Credentials(accessId, recoveryCode));
    }

    method Login(accessId: string, password: string) returns (r: Reply<Identity>)
      ensures r == Election.Login(Snapshot(), prims.pbkdf2, accessId, password)
    {
      if accessId == "" || password == "" {
        return Err(LoginIncomplete);
      }
      var found := FindByAccessId(students, NormalizeAccessId(accessId));
      if found.None? {
        return Err(UnknownAccessId);
      }
      var student := students[found.value];
      if student.passwordHash == "" || student.passwordSalt == "" {
        return Err(UnknownAccessId);
      }
      if VerifyHash(prims.pbkdf2, password, student.passwordSalt, student.passwordHash) {
        r := Ok(Identity(student.id, DisplayName(student), student.accessId));
      } else {
        r := Err(IncorrectPassword);
      }
    }

    method Vote(ballot: BallotForm, now: int, timestamp: string, suffix: int) returns (r: Reply<string>)
      requires Valid() && 1000 <= suffix <= 9999
      modifies this
      ensures Valid()
      ensures Snapshot() == Election.Vote(old(Snapshot()), prims.sha256, ballot, now, timestamp, suffix).next
      ensures r == Election.Vote(old(Snapshot()), prims.sha256, ballot, now, timestamp, suffix).reply
    {
      if now < votingStart || now > votingEnd {
        return Err(VotingClosed);
      }
      var hash := VoteHash(prims.sha256, FingerprintSource(ballot.studentId));
      if hash in votedHashes {
        return Err(AlreadyVoted);
      }
      var refCode := RefCode(suffix);
      votes := votes + [Ballot(ballot.president, ballot.vicepresident, ballot.secretary, timestamp, refCode)];
      votedHashes := votedHashes + [hash];
      r := Ok(refCode);
    }

    /** GET /api/results: one pass over the ledger, bumping each non-empty selection. */
    method Results() returns (report: Report)
      ensures report == Ledger.Results(votes)
    {
      var president := InitialCounts(President);
      var vicepresident := InitialCounts(VicePresident);
      var secretary := InitialCounts(Secretary);
      var i := 0;
      while i < |votes|
        invariant 0 <= i <= |votes|
        invariant president == TallyOffice(votes[..i], President)
        invariant vicepresident == TallyOffice(votes[..i], VicePresident)
        invariant secretary == TallyOffice(votes[..i], Secretary)
      {
        var v := votes[i];
        assert votes[..i + 1][..i] == votes[..i];
        if v.president != "" {
          president := Bump(president, v.president);
        }
        if v.vicepresident != "" {
          vicepresident := Bump(vicepresident, v.vicepresident);
        }
        if v.secretary != "" {
          secretary := Bump(secretary, v.secretary);
        }
        i := i + 1;
      }
      assert votes[..i] == votes;
      report := Report(Counts(president, vicepresident, secretary), |votes|);
    }

    method VotingStatus(now: int) returns (status: Status)
      ensures status == Election.VotingStatus(Snapshot(), now)
    {
      status := Status(now >= votingStart && now <= votingEnd, votingStart, votingEnd);
    }

    method AdminLogin(password: string, tokenBytes: seq<byte>) returns (r: Reply<string>)
      requires Valid() && |tokenBytes| == 32
      modifies this
      ensures Valid()
      ensures Snapshot() == Election.AdminLogin(old(Snapshot()), password, tokenBytes).next
      ensures r == Election.AdminLogin(old(Snapshot()), password, tokenBytes).reply
    {
      if password == ADMIN_PASSWORD {
        adminToken := Some(HexLower(tokenBytes));
        r := Ok(HexLower(tokenBytes));
      } else {
        r := Err(IncorrectPassword);
      }
    }

    method SetPeriod(authorization: Option<string>, start: string, end: string) returns (r: Reply<()>)
      requires Valid()
      modifies this
      ensures Valid()
      ensures Snapshot() == Election.SetPeriod(old(Snapshot()), prims.parseDate, authorization, start, end).next
      ensures r == Election.SetPeriod(old(Snapshot()), prims.parseDate, authorization, start, end).reply
    {
      var ok := RequireAdmin(authorization);
      if !ok {
        return Err(Unauthorized);
      }
      if start == "" || end == "" {
        return Err(MissingDates);
      }
      votingStart := prims.parseDate(start);
      votingEnd := prims.parseDate(end);
      r := Ok(());
    }

    method OpenVoting(authorization: Option<string>, now: int) returns (r: Reply<()>)
      requires Valid()
      modifies this
      ensures Valid()
      ensures Snapshot() == Election.OpenVoting(old(Snapshot()), authorization, now).next
      ensures r == Election.OpenVoting(old(Snapshot()), authorization, now).reply
    {
      var ok := RequireAdmin(authorization);
      if !ok {
        return Err(Unauthorized);
      }
      votingStart := now - MARGIN;
      votingEnd := OPEN_UNTIL;
      r := Ok(());
    }

    method CloseVoting(authorization: Option<string>, now: int) returns (r: Reply<()>)
      requires Valid()
      modifies this
      ensures Valid()
      ensures Snapshot() == Election.CloseVoting(old(Snapshot()), authorization, now).next
      ensures r == Election.CloseVoting(old(Snapshot()), authorization, now).reply
    {
      var ok := RequireAdmin(authorization);
      if !ok {
        return Err(Unauthorized);
      }
      votingEnd := now - MARGIN;
      r := Ok(());
    }

    method Reset(authorization: Option<string>) returns (r: Reply<()>)
      requires Valid()
      modifies this
      ensures Valid()
      ensures Snapshot() == Election.Reset(old(Snapshot()), authorization).next
      ensures r == Election.Reset(old(Snapshot()), authorization).reply
    {
      var ok := RequireAdmin(authorization);
      if !ok {
        return Err(Unauthorized);
      }
      votes := [];
      votedHashes := [];
      r := Ok(());
    }

    /** GET /api/export-votes: the header, then one row appended per ballot. */
    method ExportVotes(authorization: Option<string>) returns (r: Reply<string>)
      ensures r == Election.ExportVotes(Snapshot(), authorization)
    {
      var ok := RequireAdmin(authorization);
      if !ok {
        return Err(Unauthorized);
      }
      var vs := votes;
      if |vs| == 0 {
        return Ok(Csv.NO_VOTES);
      }
      var csv := Csv.HEADER;
      var i := 0;
      while i < |vs|
        invariant 0 <= i <= |vs|
        invariant csv == Csv.HEADER + Csv.Rows(vs[..i])
      {
        CsvStep(vs, i, csv);
        csv := csv + Csv.Row(vs[i]);
        i := i + 1;
      }
      assert vs[..i] == vs;
      assert Csv.ExportText(vs) == csv;
      r := Ok(csv);
    }
  }

  lemma CsvStep(vs: seq<Ballot>, i: nat, csv: string)
    requires i < |vs| && csv == Csv.HEADER + Csv.Rows(vs[..i])
    ensures csv + Csv.Row(vs[i]) == Csv.HEADER + Csv.Rows(vs[..i + 1])
  {
    assert vs[..i + 1][..i] == vs[..i];
  }
}

=== FILE: text.dfy ===
/**
 * The string built-ins of JavaScript that the server relies on: hex
 * rendering of random bytes, `toUpperCase`/`toLowerCase` (ASCII letters only),
 * `trim` (the ECMAScript white-space and line-terminator set) and the decimal
 * rendering of a non-negative integer.
 */
module Text {

  newtype byte = x: int | 0 <= x < 256

  predicate IsLowerHexDigit(c: char) { '0' <= c <= '9' || 'a' <= c <= 'f' }

  predicate IsUpperHexDigit(c: char) { '0' <= c <= '9' || 'A' <= c <= 'F' }

  predicate IsDigit(c: char) { '0' <= c <= '9' }

  predicate IsAsciiLower(c: char) { 'a' <= c <= 'z' }

  predicate IsAsciiUpper(c: char) { 'A' <= c <= 'Z' }

  /** The code points `String.prototype.trim` removes: WhiteSpace and LineTerminator. */
  predicate IsWhitespace(c: char) {
    c == '\t' || c == '\n' || c == '\U{000B}' || c == '\U{000C}' || c == '\r' || c == ' '
    || c == '\U{00A0}' || c == '\U{1680}' || ('\U{2000}' <= c <= '\U{200A}')
    || c == '\U{2028}' || c == '\U{2029}' || c == '\U{202F}' || c == '\U{205F}'
    || c == '\U{3000}' || c == '\U{FEFF}'
  }

  predicate NoLowerAscii(s: string) { forall i :: 0 <= i < |s| ==> !IsAsciiLower(s[i]) }

  // ---------------------------------------------------------------- hex

  function HexDigit(n: nat): (c: char)
    requires n < 16
    ensures IsLowerHexDigit(c)
  {
    if n < 10 then ('0' as int + n) as char else ('a' as int + n - 10) as char
  }

  function HexValue(c: char): (n: nat)
    requires IsLowerHexDigit(c)
    ensures n < 16 && HexDigit(n) == c
  {
    if c <= '9' then c as int - '0' as int else c as int - 'a' as int + 10
  }

  /** `Buffer.toString('hex')`: two lower-case hex digits per byte, high nibble first. */
  function HexLower(bs: seq<byte>): (s: string)
    ensures |s| == 2 * |bs|
    ensures forall i :: 0 <= i < |s| ==> IsLowerHexDigit(s[i])
  {
    if bs == [] then []
    else [HexDigit(bs[0] as int / 16), HexDigit(bs[0] as int % 16)] + HexLower(bs[1..])
  }

  /** Reads back a string of lower-case hex digit pairs. */
  function FromHex(s: string): (bs: seq<byte>)
    requires |s| % 2 == 0
    requires forall i :: 0 <= i < |s| ==> IsLowerHexDigit(s[i])
    ensures 2 * |bs| == |s|
  {
    if s == [] then [] else [(HexValue(s[0]) * 16 + HexValue(s[1])) as byte] + FromHex(s[2..])
  }

  /** Hex rendering loses nothing: the bytes can be read back. */
  lemma {:induction false} FromHexLower(bs: seq<byte>)
    ensures FromHex(HexLower(bs)) == bs
  {
    if bs != [] {
      var s := HexLower(bs);
      assert s[2..] == HexLower(bs[1..]);
      FromHexLower(bs[1..]);
      var b := bs[0] as int;
      assert HexValue(s[0]) == b / 16 && HexValue(s[1]) == b % 16 by {
        assert HexDigit(HexValue(s[0])) == s[0] == HexDigit(b / 16);
        assert HexDigit(HexValue(s[1])) == s[1] == HexDigit(b % 16);
        HexDigitInjective(HexValue(s[0]), b / 16);
        HexDigitInjective(HexValue(s[1]), b % 16);
      }
    }
  }

  lemma HexDigitInjective(m: nat, n: nat)
    requires m < 16 && n < 16 && HexDigit(m) == HexDigit(n)
    ensures m == n
  {
  }

  // ---------------------------------------------------------------- case

  function UpperChar(c: char): char {
    if IsAsciiLower(c) then (c as int - 32) as char else c
  }

  function LowerChar(c: char): char {
    if IsAsciiUpper(c) then (c as int + 32) as char else c
  }

  /** `toUpperCase`, restricted to the ASCII letters. */
  function Upper(s: string): string {
    seq(|s|, i requires 0 <= i < |s| => UpperChar(s[i]))
  }

  /** `toLowerCase`, restricted to the ASCII letters. */
  function Lower(s: string): string {
    seq(|s|, i requires 0 <= i < |s| => LowerChar(s[i]))
  }

  /** Upper-casing lower-case hex digits gives upper-case hex digits. */
  lemma UpperHex(s: string)
    requires forall i :: 0 <= i < |s| ==> IsLowerHexDigit(s[i])
    ensures |Upper(s)| == |s| && forall i :: 0 <= i < |s| ==> IsUpperHexDigit(Upper(s)[i])
  {
  }

  /** Upper-casing leaves no lower-case letter behind and fixes every string that has none. */
  lemma UpperNormalizes(s: string)
    ensures NoLowerAscii(Upper(s))
    ensures NoLowerAscii(s) ==> Upper(s) == s
  {
  }

  // ---------------------------------------------------------------- trim

  /** `trimStart`: drops the white space at the front and nothing else. */
  function TrimStart(s: string): (r: string)
    ensures |r| <= |s| && r == s[|s| - |r|..]
    ensures forall k :: 0 <= k < |s| - |r| ==> IsWhitespace(s[k])
    ensures r == [] || !IsWhitespace(r[0])
  {
    if s != [] && IsWhitespace(s[0]) then
      var r := TrimStart(s[1..]);
      assert s[1..][|s| - 1 - |r|..] == s[|s| - |r|..];
      assert forall k :: 1 <= k < |s| - |r| ==> s[k] == s[1..][k - 1];
      r
    else s
  }

  /** `trimEnd`: drops the white space at the back and nothing else. */
  function TrimEnd(s: string): (r: string)
    ensures |r| <= |s| && r == s[..|r|]
    ensures forall k :: |r| <= k < |s| ==> IsWhitespace(s[k])
    ensures r == [] || !IsWhitespace(r[|r| - 1])
  {
    if s != [] && IsWhitespace(s[|s| - 1]) then
      var r := TrimEnd(s[..|s| - 1]);
      assert s[..|s| - 1][..|r|] == s[..|r|];
      assert forall k :: |r| <= k < |s| - 1 ==> s[k] == s[..|s| - 1][k];
      r
    else s
  }

  function Trim(s: string): string {
    TrimEnd(TrimStart(s))
  }

  /** A string that neither starts nor ends with white space is its own trim. */
  lemma TrimKeeps(s: string)
    requires s == [] || (!IsWhitespace(s[0]) && !IsWhitespace(s[|s| - 1]))
    ensures Trim(s) == s
  {
  }

  // ---------------------------------------------------------------- decimal

  function DigitChar(d: nat): (c: char)
    requires d < 10
    ensures IsDigit(c)
  {
    ('0' as int + d) as char
  }

  /** The decimal text JavaScript produces for a non-negative integer number. */
  function Decimal(n: nat): (s: string)
    ensures s != []
    ensures forall i :: 0 <= i < |s| ==> IsDigit(s[i])
  {
    if n < 10 then [DigitChar(n)] else Decimal(n / 10) + [DigitChar(n % 10)]
  }

  function ParseDecimal(s: string): nat
    requires forall i :: 0 <= i < |s| ==> IsDigit(s[i])
  {
    if s == [] then 0
    else
      assert IsDigit(s[|s| - 1]);
      10 * ParseDecimal(s[..|s| - 1]) + (s[|s| - 1] as int - '0' as int)
  }

  /** Decimal rendering can be read back. */
  lemma {:induction false} ParseDecimalOf(n: nat)
    ensures ParseDecimal(Decimal(n)) == n
  {
    if n >= 10 {
      var s := Decimal(n);
      assert s[..|s| - 1] == Decimal(n / 10);
      ParseDecimalOf(n / 10);
    }
  }

  function Pow10(k: nat): nat {
    if k == 0 then 1 else 10 * Pow10(k - 1)
  }

  /** A number with exactly k digits is rendered with k characters. */
  lemma {:induction false} DecimalLength(n: nat, k: nat)
    requires 1 <= k && Pow10(k - 1) <= n < Pow10(k)
    ensures |Decimal(n)| == k
  {
    if n >= 10 {
      assert k >= 2;
      assert Pow10(k - 2) <= n / 10 < Pow10(k - 1);
      DecimalLength(n / 10, k - 1);
    }
  }
}

=== FILE: trace.dfy ===
/**
 * Sequences of requests. The server handles one request at a time, so any
 * history of the process is a run of the per-route transitions; the lemmas
 * here lift the per-route guarantees to whole runs.
 */
module Trace {
  import opened Base
  import opened Text
  import opened Election

  /** One request, together with the clock readings and random draws it consumes. */
  datatype Request =
    | RegisterReq(form: RegisterForm, entropy: RegisterEntropy)
    | LoginReq(accessId: string, password: string)
    | VoteReq(ballot: BallotForm, now: int, timestamp: string, suffix: int)
    | ResultsReq
    | StatusReq(now: int)
    | AdminLoginReq(password: string, tokenBytes: seq<byte>)
    | SetPeriodReq(authorization: Option<string>, start: string, end: string)
    | OpenVotingReq(authorization: Option<string>, now: int)
    | CloseVotingReq(authorization: Option<string>, now: int)
    | ResetReq(authorization: Option<string>)
    | ExportReq(authorization: Option<string>)

  /** The random draws have the sizes and ranges the server produces. */
  predicate Admissible(r: Request) {
    match r
    case RegisterReq(_, e) => e.WellFormed()
    case VoteReq(_, _, _, k) => 1000 <= k <= 9999
    case AdminLoginReq(_, t) => |t| == 32
    case _ => true
  }

  predicate AllAdmissible(rs: seq<Request>) {
    forall i :: 0 <= i < |rs| ==> Admissible(rs[i])
  }

  predicate NoReset(rs: seq<Request>) {
    forall i :: 0 <= i < |rs| ==> !rs[i].ResetReq?
  }

  /** The state after one request. */
  function Next(s: State, p: Primitives, r: Request): (s': State)
    requires Admissible(r)
    ensures Inv(s) ==> Inv(s')
    ensures !r.ResetReq? ==> s.votes <= s'.votes && s.votedHashes <= s'.votedHashes
  {
    match r
    case RegisterReq(f, e) => Register(s, p.pbkdf2, f, e).next
    case LoginReq(_, _) => s
    case VoteReq(b, now, t, k) => Vote(s, p.sha256, b, now, t, k).next
    case ResultsReq => s
    case StatusReq(_) => s
    case AdminLoginReq(pw, t) => AdminLogin(s, pw, t).next
    case SetPeriodReq(a, start, end) => SetPeriod(s, p.parseDate, a, start, end).next
    case OpenVotingReq(a, now) => OpenVoting(s, a, now).next
    case CloseVotingReq(a, now) => CloseVoting(s, a, now).next
    case ResetReq(a) => Reset(s, a).next
    case ExportReq(_) => s
  }

  /** The state after a run of requests, handled in order. */
  function Run(s: State, p: Primitives, rs: seq<Request>): State
    requires AllAdmissible(rs)
    decreases rs
  {
    if rs == [] then s else Run(Next(s, p, rs[0]), p, rs[1..])
  }

  /** Every run keeps the invariant: ids distinct, one fingerprint per ballot, none twice. */
  lemma {:induction false} RunKeepsInv(s: State, p: Primitives, rs: seq<Request>)
    requires Inv(s) && AllAdmissible(rs)
    ensures Inv(Run(s, p, rs))
    decreases rs
  {
    if rs != [] {
      assert Admissible(rs[0]);
      RunKeepsInv(Next(s, p, rs[0]), p, rs[1..]);
    }
  }

  /** Without a reset request the ledger only grows: ballots and fingerprints are never lost. */
  lemma {:induction false} LedgerGrowsWithoutReset(s: State, p: Primitives, rs: seq<Request>)
    requires AllAdmissible(rs) && NoReset(rs)
    ensures s.votes <= Run(s, p, rs).votes && s.votedHashes <= Run(s, p, rs).votedHashes
    decreases rs
  {
    if rs != [] {
      assert Admissible(rs[0]) && !rs[0].ResetReq?;
      var s1 := Next(s, p, rs[0]);
      LedgerGrowsWithoutReset(s1, p, rs[1..]);
    }
  }

  /**
   * A student id whose vote was accepted is refused on every later vote, after
   * any run of requests that holds no reset.
   */
  lemma OnceVotedAlwaysRefused(s: State, p: Primitives, b: BallotForm, now: int, t: string, k: int,
                               rs: seq<Request>, b': BallotForm, now': int, t': string, k': int)
    requires 1000 <= k <= 9999 && 1000 <= k' <= 9999
    requires Vote(s, p.sha256, b, now, t, k).reply.Ok?
    requires AllAdmissible(rs) && NoReset(rs)
    requires b'.studentId == b.studentId
    ensures var later := Run(Vote(s, p.sha256, b, now, t, k).next, p, rs);
      Vote(later, p.sha256, b', now', t', k').reply
        == if VotingStatus(later, now').isOpen then Err(AlreadyVoted) else Err(VotingClosed)
  {
    var s1 := Vote(s, p.sha256, b, now, t, k).next;
    var fp := Fingerprint(p.sha256, b.studentId);
    assert fp in s1.votedHashes by {
      assert s1.votedHashes[|s1.votedHashes| - 1] == fp;
    }
    LedgerGrowsWithoutReset(s1, p, rs);
    var later := Run(s1, p, rs);
    assert fp in later.votedHashes by {
      var i :| 0 <= i < |s1.votedHashes| && s1.votedHashes[i] == fp;
      assert later.votedHashes[i] == fp;
    }
  }
}

=== FILE: walkthrough.dfy ===
/**
 * One complete election on a fresh server: register STU001, log in with the
 * issued access id, vote once in an open window, be refused a second time,
 * and read the president tally. Holds whatever the hash primitives compute.
 */
module Walkthrough {
  import opened Base
  import opened Text
  import opened Registry
  import opened Ledger
  import opened Election

  const FORM := RegisterForm("STU001", "Abc123!", "Abc123!", "pet name", "rex")
  const BALLOT := BallotForm(Some("STU001"), "Sarah Johnson", "Michael Chen", "Emily Brown")

  /**
   * A fresh server accepts any complete form, and the issued access id logs in
   * with the same password under the normalised id.
   */
  lemma RegisterThenLoginFresh(p: Primitives, f: RegisterForm, id: string, e: RegisterEntropy,
                               start: int, end: int, reg: Step<Credentials>)
    requires f.Complete() && id == NormalizeStudentId(f.studentId)
    requires e.WellFormed() && reg == Register(Initial(start, end), p.pbkdf2, f, e)
    ensures reg.reply.Ok?
    ensures reg.next.votes == [] && reg.next.votedHashes == []
    ensures reg.next.votingStart == start && reg.next.votingEnd == end
    ensures Login(reg.next, p.pbkdf2, reg.reply.value.accessId, f.password)
      == Ok(Identity(id, "Student " + id, reg.reply.value.accessId))
  {
    var s0 := Initial(start, end);
    assert reg.reply.Ok? by {
      assert s0.students == [];
    }
    assert reg.next == s0.(students := reg.next.students);
    RegisterThenLogin(s0, p.pbkdf2, f, e, id);
  }

  /** STU001 is already in normal form. */
  lemma NormalStudentId()
    ensures NormalizeStudentId("STU001") == "STU001"
  {
    assert Upper("STU001") == "STU001";
    TrimKeeps("STU001");
  }

  /**
   * On an empty ledger with the window open, the first ballot is accepted
   * with a reference code, the same student is then refused, and the
   * president tally reads one vote for the chosen candidate and none for
   * the other.
   */
  lemma VoteThenTally(s: State, sha: Crypto.Sha256, now: int, t: string, k: int, t': string, k': int,
                      first: Step<string>)
    requires s.votes == [] && s.votedHashes == []
    requires s.votingStart <= now <= s.votingEnd
    requires 1000 <= k <= 9999 && 1000 <= k' <= 9999
    requires first == Vote(s, sha, BALLOT, now, t, k)
    ensures first.reply.Ok? && first.reply.value[..8] == REF_PREFIX
    ensures Vote(first.next, sha, BALLOT, now, t', k').reply == Err(AlreadyVoted)
    ensures Results(first.next.votes).counts.president == map["Sarah Johnson" := N(1), "John Davis" := N(0)]
  {
    assert first.reply.Ok?;
    VoteOnce(s, sha, BALLOT, now, t, k, BALLOT, now, t', k');
    var vs := first.next.votes;
    assert |vs| == 1 && vs[0].president == "Sarah Johnson";
    PresidentTally(vs);
  }

  /** The president tally of a single ballot for Sarah Johnson. */
  lemma PresidentTally(vs: seq<Ballot>)
    requires |vs| == 1 && vs[0].president == "Sarah Johnson"
    ensures TallyOffice(vs, President) == map["Sarah Johnson" := N(1), "John Davis" := N(0)]
  {
    assert vs[..0] == [];
    assert VotesFor(vs[..0], President, "Sarah Johnson") == 0;
    TallyKnown(vs, President, "Sarah Johnson");
    TallyKnown(vs, President, "John Davis");
  }

  /**
   * The whole walkthrough, from start-up to the tally: `reg` is the
   * registration on a fresh server and `first` the vote that follows it.
   */
  lemma RegisterLoginVoteTally(p: Primitives, e: RegisterEntropy, start: int, end: int, now: int,
                               t: string, k: int, t': string, k': int,
                               reg: Step<Credentials>, first: Step<string>)
    requires e.WellFormed() && start <= now <= end
    requires 1000 <= k <= 9999 && 1000 <= k' <= 9999
    requires reg == Register(Initial(start, end), p.pbkdf2, FORM, e)
    requires first == Vote(reg.next, p.sha256, BALLOT, now, t, k)
    ensures reg.reply.Ok?
    ensures Login(reg.next, p.pbkdf2, reg.reply.value.accessId, "Abc123!")
      == Ok(Identity("STU001", "Student " + "STU001", reg.reply.value.accessId))
    ensures first.reply.Ok? && first.reply.value[..8] == REF_PREFIX
    ensures Vote(first.next, p.sha256, BALLOT, now, t', k').reply == Err(AlreadyVoted)
    ensures Results(first.next.votes).counts.president == map["Sarah Johnson" := N(1), "John Davis" := N(0)]
  {
    var s1 := reg.next;
    assert && reg.reply.Ok?
           && Login(s1, p.pbkdf2, reg.reply.value.accessId, "Abc123!")
                == Ok(Identity("STU001", "Student " + "STU001", reg.reply.value.accessId))
           && s1.votes == [] && s1.votedHashes == [] && s1.votingStart <= now <= s1.votingEnd by {
      assert FORM.Complete();
      NormalStudentId();
      RegisterThenLoginFresh(p, FORM, "STU001", e, start, end, reg);
    }
    VoteThenTally(s1, p.sha256, now, t, k, t', k', first);
  }
}
